=== FILE: README.md ===
# BGPT chat widget — a Dafny model of its conversation logic

The BGPT widget is a browser chat interface for Role Model Academy's coaching
assistant. It has two parts:

- `AdvancedChatInterface` (main.js) is the chat itself. It holds the input
  and send button, a typing indicator, and a message counter. Its keyword
  classifier picks a canned reply for a message. The reply arrives after a
  simulated delay, and an error notice is shown when producing it throws.
- `PremiumFeatures` (enhanced-features.js) adds features around the chat:
  - topic detection with follow-up suggestions and a background change;
  - ArrowUp recall of earlier prompts;
  - sharing of the last five messages;
  - shortened labels in the history list;
  - swipe gestures;
  - an offline queue that holds messages until the connection returns.

This project models all of that logic as pure functions over immutable
datatypes. The modules are:

- `Text`: ECMAScript `trim`, ASCII `toLowerCase`, and substring search
  (`includes`), each with a reference definition.
- `Classify`: the generic "first keyword list that matches wins" classifier,
  which both `generateResponse` and `getContextFromMessage` are instances of.
- `Responses`: the canned catalogue, `getRandomResponse`, `generateResponse`
  and `generatePromptResponse`. It also holds the corrected reply function
  described under Findings.
- `Chat`: the conversation state and its transitions: typing, sending, the
  send-button flag, the typing indicator, the delayed reply, and
  `handleError`.
- `Topics`: `getContextFromMessage`, the background listener and the
  suggestion table.
- `PromptHistory`: `chatHistory` and `historyIndex` with ArrowUp recall.
- `OfflineQueue`: `queueMessage` and `handleNetworkChange`.
- `Share`: the share transcript and the history-list labels.
- `Gesture`: the swipe rule.

The model takes the world as parameters:

- randomness is a draw `r` in [0, 1);
- the clock is the already-formatted string `now`;
- connectivity is a boolean;
- the order in which simulated reply delays elapse is an index `k`;
- touch coordinates are integers.

## Model

| member | source | states |
|---|---|---|
| Text.Trim | main.js:265 | The trimmed message is a slice of the input that drops only ECMAScript whitespace before and after it. It is empty exactly when the input is all whitespace, and otherwise starts and ends with a non-whitespace character. |
| Text.TrimIdempotent | main.js:265 | Trimming a trimmed message changes nothing. |
| Text.LowerChar | main.js:373 | An ASCII capital becomes its own small letter; every other character is kept. |
| Text.Lower | main.js:373 | Lower-casing keeps the length, replaces each ASCII capital in place by its own small letter, and keeps every other character. |
| Text.IncludesSpec | main.js:420 | `includes` holds exactly when the word occurs at some position of the text. |
| Classify.ContainsWords | main.js:419-421 | `containsWords` holds exactly when at least one keyword of the list occurs in the text; an empty list never matches. |
| Classify.ContainsWordsSpec | main.js:419-421 | The same property, stated through occurrences at positions. |
| Classify.FirstMatch | main.js:376-413 | The classifier picks a rule that matches, and no earlier rule matches. |
| Classify.CategorizeIsFirstMatch | main.js:376-416 | A category is chosen exactly when its rule matches and no earlier rule does, provided the categories are distinct. |
| Classify.CategorizeIsFallback | main.js:415-416 | The fallback is chosen exactly when no rule matches. |
| Responses.RandomIndex | main.js:423-425 | `Math.floor(Math.random() * n)` is always a valid index of a non-empty list. |
| Responses.RandomIndexReaches | main.js:424 | Every index of the list is drawn by some random value, so no candidate is unreachable. |
| Responses.GetRandomResponse | main.js:423-425 | The result is undefined exactly for an empty list; otherwise it is an element of the list. |
| Responses.CategoryOf | main.js:373-413 | A message falls through to the catalogue exactly when no keyword list matches its lower-cased form. Otherwise its branch is one whose list matches, with no earlier list matching. |
| Responses.CategoryPriority | main.js:373-413 | Branch `k` is taken exactly when one of its keywords occurs in the lower-cased message and no keyword of an earlier branch does. |
| Responses.CategoryDefault | main.js:373-416 | The catalogue fall-through is taken exactly when no branch's keyword occurs. |
| Responses.CategoryIgnoresCase | main.js:373 | A message and its lower-cased form take the same branch. |
| Responses.ErrorMessage | main.js:377 | The `TypeError` message of reading a property of `undefined` names that property. |
| Responses.ReplyFor | main.js:376-416 | Greeting, help, thanks and goodbye throw, because `contextualResponses` is never assigned. The fall-through returns a catalogue object. A joke is one of the three jokes. |
| Responses.GenerateResponse | main.js:372-417 | The reply throws exactly for the four conversational branches. It is an object exactly when no keyword matches. A joke request gets one of the jokes. |
| Responses.HelloThrows | main.js:376-378 | "Hello there" is classified as a greeting, and generating its reply throws. |
| Responses.SubstringNotWord | main.js:376 | Matching is by substring: "what is this" is a greeting because "this" contains "hi". |
| Responses.Find | main.js:74-81 | `find` returns the first entry of the requested type, and nothing exactly when no entry has it. |
| Responses.PromptKind | main.js:74-82 | A prompt gets the greeting exactly when none of the case-sensitive tests holds. Otherwise its kind is that of a test that holds, with no earlier test holding. |
| Responses.GeneratePromptResponse | main.js:71-85 | A prompt is always answered with the content of a catalogue entry of the kind it selects, so the answer is never undefined. |
| Responses.PromptPriority | main.js:74-82 | The prompt tests are tried in order ("Presence", then "goal", then "Fundamentals"). The greeting is used exactly when none holds. |
| Responses.PromptIsCaseSensitive | main.js:74-82 | The prompt tests are case-sensitive: "presence" gets the greeting, not the presence text. |
| Responses.CorrectedFor | main.js:376-416 | A corrected branch always yields a string from its own pool, or from the catalogue contents when that pool is empty. |
| Responses.ReplyCorrected | main.js:372-417 | The corrected `generateResponse` always yields a string from the pool of the branch the message selects. |
| Responses.CorrectedForAgrees | main.js:393-416 | Per branch, where the code as written gives a reply, the corrected reply is that string or that object's content. |
| Responses.ReplyCorrectedAgrees | main.js:372-417 | Where the code as written gives a reply, the corrected reply is the same string or the catalogue object's `content`. |
| Chat.Type | main.js:147-150 | Typing stores the text and nothing else. The recomputed button is disabled exactly when the text is blank or the typing indicator is up. |
| Chat.SendButtonDisabled | main.js:171-173 | The button is disabled exactly when the input is blank or the typing indicator is up. |
| Chat.SendMessage | main.js:264-276 | A blank send, or a send while typing, changes nothing. Otherwise the trimmed text is appended as a user bubble, the input is cleared and the counter goes up by one. The welcome screen is hidden on the first counted message, a reply is scheduled, and the typing flag is untouched. |
| Chat.SendAcceptedIffEnabled | main.js:171-173 | A send changes the state exactly when the button is enabled. |
| Chat.ShowTypingIndicator | main.js:427-432 | Raising the indicator disables the button, and sends are then ignored. Nothing but the flag changes. |
| Chat.HideTypingIndicator | main.js:434-438 | Lowering the indicator enables the button exactly when the input holds text. Nothing but the flag changes. |
| Chat.DoubleSendNotSingleFlight | main.js:264-292 | Two non-blank sends in a row are both accepted, and both wait for a reply. |
| Chat.HandleError | main.js:248-262 | An error mentioning "network" gives the connection notice with the advice to check the connection. Otherwise one mentioning "timeout" gives the timed-out notice with the advice that the server is slow. Anything else gives the generic notice. Each notice is fixed whole, message and suggestion. |
| Chat.HandleErrorByKeywords | main.js:248-262 | Two error messages get the same notice when they agree on mentioning "network" and, unless both mention it, on mentioning "timeout". |
| Chat.ResolveReply | main.js:281-291 | When a reply delay elapses, that send leaves the pending list. A string reply becomes a bot bubble with that text. A catalogue object becomes the bubble "[object Object]". A thrown error adds no bubble and adds the notice `handleError` picks for its message. Input, flag, counter and welcome screen are untouched. |
| Chat.FallbackShowsObjectText | main.js:367-370 | A message no keyword list matches is answered with the bubble "[object Object]". |
| Chat.ConversationalBranchesShowError | main.js:281-291 | A greeting, help request, thanks or goodbye gets no bubble, only the generic error notice. |
| Chat.InitialSingleFlight | main.js:9-10 | The constructor starts with the flag down, a zero count and nothing outstanding, so single-flight holds from the start. |
| Chat.SendSingleFlight | main.js:264-276 | The corrected send keeps at most one reply outstanding, with the typing flag up exactly while it is. It is the original send with the flag raised on acceptance: the same guard, user bubble, cleared input, counter, welcome rule and pending message. |
| Chat.ResolveSingleFlight | main.js:281-291 | Under the corrected send, the outstanding message always gets a bot bubble, the flag comes down, and single-flight is kept. The input, counter, notices and welcome screen are untouched. |
| Chat.SecondSendIgnored | main.js:265-266 | Under the corrected send, a second send right after the first is ignored. |
| Topics.GetContextFromMessage | enhanced-features.js:139-148 | The topic is `default` exactly when no topic's keyword occurs in the message. |
| Topics.ContextPriority | enhanced-features.js:139-148 | A topic is chosen exactly when one of its keywords occurs and no earlier topic's keyword does. |
| Topics.BackgroundFor | enhanced-features.js:63-73 | The listener leaves the background alone exactly when no topic's keyword occurs in the lower-cased message; it never picks `default`. |
| Topics.BackgroundAgreesWithContext | enhanced-features.js:63-73 | The background listener changes the background to exactly the topic `getContextFromMessage` gives the lower-cased message. It leaves the background alone when that topic is `default`. |
| Topics.EveryTopicHasSuggestions | enhanced-features.js:99-120 | Every topic, `default` included, has its own list of three suggestions. |
| Topics.Suggestions | enhanced-features.js:154 | The lookup always finds the topic's own list, so the fallback to `default` never fires. |
| Topics.SuggestionsAfterReply | enhanced-features.js:133-136 | After a bot reply, the three suggestions shown are those of the reply's lower-cased topic. |
| PromptHistory.InitialValid | enhanced-features.js:206-207 | The history starts empty with index -1, which satisfies the index invariant. |
| PromptHistory.MessageSent | enhanced-features.js:210-215 | A user message is appended and the index moves just past it; other senders change nothing. |
| PromptHistory.ShowPreviousMessage | enhanced-features.js:218-231 | Above 0, the index steps back one and the message there is recalled. At 0, or before anything was sent, nothing happens. The index invariant is kept. |
| PromptHistory.PressUpWalksBack | enhanced-features.js:218-222 | After a send, `k` presses recall the last `k` messages from newest to oldest and move the index `k` places back. |
| PromptHistory.PressUpStopsAtOldest | enhanced-features.js:219 | Once the index is at 0, further presses change nothing and recall nothing. |
| OfflineQueue.Init | enhanced-features.js:815-832 | The queue starts empty, the online flag is the browser's, and the invariant holds. Starting offline, the extra `handleNetworkChange(false)` leaves that state unchanged. |
| OfflineQueue.StartNotices | enhanced-features.js:828-831 | Start-up shows no notification when online. Offline it shows the one `handleNetworkChange(false)` gives, "You are offline. Messages will be queued." |
| OfflineQueue.StartOfflineQueues | enhanced-features.js:828-862 | A session that starts offline queues its first message; one that starts online does not. |
| OfflineQueue.QueueMessage | enhanced-features.js:856-862 | A message is queued, and `true` returned, exactly when offline; online the queue is untouched. |
| OfflineQueue.HandleNetworkChange | enhanced-features.js:834-854 | Coming online hands over the whole queue in order and empties it. Going offline keeps the queue. The "sending" notification appears exactly when messages were waiting. |
| OfflineQueue.RunConservesMessages | enhanced-features.js:834-862 | Over any sequence of offers and connectivity changes, no message is lost, duplicated or reordered. The queued messages followed by the accepted ones equal the handed-over ones followed by what is still queued. |
| OfflineQueue.RunKeepsValid | enhanced-features.js:834-862 | After any sequence of events the queue is empty whenever the connection is up. |
| Share.Recent | enhanced-features.js:378 | `slice(-5)` keeps the last min(5, n) messages, in order. |
| Share.RecentSlides | enhanced-features.js:378 | Once five messages exist, a new message pushes the oldest out of the window. |
| Share.Labelled | enhanced-features.js:379-382 | Each message becomes one line labelled with its sender, in the same order. |
| Share.Join | enhanced-features.js:382 | Joining no parts gives the empty string; otherwise the joined text starts with the first part. |
| Share.JoinEndsWithLast | enhanced-features.js:382 | A non-empty join ends with its last part. |
| Share.JoinSnoc | enhanced-features.js:382 | Joining one more part appends the separator and that part. |
| Share.ShareText | enhanced-features.js:368-385 | No text (the "No messages to share" notice) exactly for an empty history. Otherwise the text is the last min(5, n) messages, each labelled with its sender, in order, joined by a blank line, then the attribution line. |
| Share.ShareGrows | enhanced-features.js:377-385 | With fewer than five messages, sharing after one more inserts a blank line and the new labelled message before the attribution. |
| Share.ShareAfterOneMore | enhanced-features.js:377-385 | With five or more messages, sharing after one more drops the oldest labelled line and appends the new one. |
| Share.HistoryLabel | enhanced-features.js:486 | A label is never longer than 60 characters. It is the content itself up to 60; longer content becomes its first 57 characters plus "...". |
| Share.HistoryLabelIdempotent | enhanced-features.js:486 | Shortening a label again changes nothing. |
| Gesture.SwipeActionFor | enhanced-features.js:435-447 | A swipe acts only when the horizontal travel exceeds 50 and the vertical travel. Travelling left opens the history and travelling right opens the settings. |
| Gesture.ReversedSwipe | enhanced-features.js:435-447 | Reversing a swipe swaps its two actions and keeps "no action". |
| Gesture.SwipeIsTranslationInvariant | enhanced-features.js:435-436 | Only the differences between start and end points matter, not where the swipe happens. |

## Left out

- Rendering is left out because it has no bearing on the conversation logic. This covers DOM construction, CSS classes, animations, scrolling, `escapeHtml`, and the markdown-to-HTML step of `addFormattedMessage`. A bubble is reduced to its sender and text.
- `handlePromptClick`, `clearChat`, the settings panel, the history modal's text extraction, export, voice input, analytics and accessibility helpers are left out. They are DOM or browser-API wiring around the modelled operations.
- `navigator.share` and the clipboard fallback are left out: they are browser APIs. The share text they receive is modelled.
- The orb colours that `changeBackground` applies are left out as presentation. The decision to change the background, and to which topic, is modelled.
- `setTimeout` durations are left out as timing. The 1-2 s reply delay becomes "some pending send resolves next". The 5 s auto-removal of error notices and the prompt-click delay are not modelled.
- `Math.random`, `new Date().toLocaleString()` and `navigator.onLine` are not modelled directly. They are the parameters `r`, `now` and `online`.
- The event bus is not modelled. main.js never dispatches `bgpt-message-sent` or `bgpt-bot-response`, and never assigns `window.chatInterface` or `messageHistory`. So the `PremiumFeatures` operations take their inputs explicitly.
- Only the keyboard shortcut that recalls prompts is modelled. The dispatch table and its focus condition are left out, and so are the other shortcuts.
- The offline queue's hand-over only logs in the source; the model returns the handed-over messages instead.
- Text.Lower, Text.LowerChar: map only ASCII capitals. JavaScript's `toLowerCase` also folds other characters, and some fold into the letters of keywords. The Kelvin sign U+212A becomes "k", and U+0130 becomes "i" followed by a combining dot. So "JO\u212AE" takes the joke branch in the source but falls through to the catalogue in the model. Messages holding such characters can be classified differently.
- Chat: keeps bubbles (`transcript`) and error boxes (`notices`) in two lists. In the source both are appended to the same `messagesContainer` (main.js:216, main.js:351), so their relative order is not modelled.
- Chat.SingleFlight: the corrected discipline covers `sendMessage` and its reply only. The timers of `handlePromptClick` (main.js:59-68) raise and lower the typing flag on their own, and `ShowTypingIndicator` and `HideTypingIndicator` as modelled can break it.
- Share.HistoryLabel: counts Unicode scalar values, not JavaScript's UTF-16 code units. For content holding characters outside the Basic Multilingual Plane, such as emoji, the cut falls at a different place.
- Responses.RandomIndex: computes with exact reals, not IEEE doubles. The index bound it proves also holds for doubles, but the distribution is not modelled.
- Responses.ErrorMessage: uses V8's wording of the `TypeError`. Other engines word it differently; none of those wordings is modelled.
- The wording of `contextualResponses` does not exist in the source. In the corrected reply it is the parameter `Contextual`.

## Notes on the code

- `historyIndex` starts at -1 (enhanced-features.js:207). `PromptHistory.Valid` therefore allows -1 while the history is empty, and 0 to the history's length afterwards.
- The guard at main.js:266 tests `isTyping`, which points to one message in flight at a time. The branches at main.js:377-389 expect reply lists in `contextualResponses`. The code provides neither; see Findings.

## Findings

| source | as written | input that shows it | evidently intended | confidence | as-written member | corrected member |
|---|---|---|---|---|---|---|
| main.js:376-389 | The greeting, help, thanks and goodbye branches read `this.contextualResponses.<branch>`, which the constructor never assigns. The read throws a `TypeError`, and the user sees the generic "Something went wrong" notice. | "Hello there" | A reply drawn from the branch's own list of answers | high, not executed | Responses.HelloThrows | Responses.ReplyCorrected |
| main.js:416 | The fall-through returns an element of `this.responses`, which is an object, so the bubble shows "[object Object]". | "ok" (no keyword list matches) | The `content` string of a catalogue entry | high, not executed | Chat.FallbackShowsObjectText | Responses.ReplyCorrected |
| main.js:264-276 | The guard refuses a send while `isTyping`, but `sendMessage` never raises that flag. A second message sent during the reply delay is accepted, so two replies are in flight. | Two non-blank messages sent back to back | One outstanding reply at a time, with the flag up until it arrives | medium, not executed | Chat.DoubleSendNotSingleFlight | Chat.SendSingleFlight |

=== FILE: Chat.dfy ===
/**
 * The conversation state of `AdvancedChatInterface` (main.js) and the
 * transitions that touch it: editing the input, `sendMessage`'s guard and
 * counter, `updateSendButton`'s disabled flag, the typing indicator, and
 * the delayed bot reply that `sendMessage` awaits. Rendering is reduced to
 * the ordered list of message bubbles and of error notices.
 */
module Chat {
  import opened Text
  import opened Responses

  datatype Sender = User | Bot

  /** One message bubble appended to the messages container. */
  datatype Turn = Turn(sender: Sender, text: string)

  /** One `showError` box: a message and a suggestion. */
  datatype Notice = Notice(message: string, suggestion: string)

  /** `pending` lists, in send order, the trimmed messages whose simulated
      reply delay has not yet elapsed. */
  datatype Chat = Chat(input: string, isTyping: bool, messageCount: nat, welcomeVisible: bool,
                       transcript: seq<Turn>, notices: seq<Notice>, pending: seq<string>)

  /** The state right after the constructor. */
  const Initial := Chat("", false, 0, true, [], [], [])

  /** Editing the input field: the `input` listener stores the text and
      recomputes the send button from it; nothing else changes. */
  function Type(c: Chat, text: string): (c': Chat)
    ensures c'.input == text
    ensures c'.(input := c.input) == c
    ensures SendButtonDisabled(c') <==> AllWhitespace(text) || c.isTyping
  {
    c.(input := text)
  }

  /** `updateSendButton`: the button is disabled exactly when the trimmed
      input is empty or the typing indicator is up. */
  function SendButtonDisabled(c: Chat): (disabled: bool)
    ensures disabled <==> AllWhitespace(c.input) || c.isTyping
  {
    Trim(c.input) == [] || c.isTyping
  }

  /** The synchronous part of `sendMessage`: a send of blank input or a send
      while the typing indicator is up changes nothing; otherwise the trimmed
      text becomes a user bubble, the input is cleared, the counter goes up
      by one, the welcome screen is hidden if this is the first counted
      message, and a reply is scheduled. The typing flag is left alone. */
  function SendMessage(c: Chat): (c': Chat)
    ensures AllWhitespace(c.input) || c.isTyping ==> c' == c
    ensures !(AllWhitespace(c.input) || c.isTyping) ==>
              && c'.messageCount == c.messageCount + 1
              && c'.input == []
              && c'.transcript == c.transcript + [Turn(User, Trim(c.input))]
              && c'.pending == c.pending + [Trim(c.input)]
              && c'.notices == c.notices
    ensures c'.isTyping == c.isTyping
    ensures c.messageCount != 0 ==> c'.welcomeVisible == c.welcomeVisible
    ensures c'.messageCount != c.messageCount && c.messageCount == 0 ==> !c'.welcomeVisible
  {
    var message := Trim(c.input);
    if message == [] || c.isTyping then c
    else
      c.(input := [],
         messageCount := c.messageCount + 1,
         welcomeVisible := if c.messageCount == 0 then false else c.welcomeVisible,
         transcript := c.transcript + [Turn(User, message)],
         pending := c.pending + [message])
  }

  /** A send changes the state exactly when the send button is enabled. */
  lemma SendAcceptedIffEnabled(c: Chat)
    ensures SendMessage(c) != c <==> !SendButtonDisabled(c)
  {
  }

  /** `showTypingIndicator`: raises the flag, which disables the button and
      blocks sends. */
  function ShowTypingIndicator(c: Chat): (c': Chat)
    ensures c'.isTyping && SendButtonDisabled(c')
    ensures SendMessage(c') == c'
    ensures c'.(isTyping := c.isTyping) == c
  {
    c.(isTyping := true)
  }

  /** `hideTypingIndicator`: lowers the flag; the button is then enabled
      exactly when the input holds text. */
  function HideTypingIndicator(c: Chat): (c': Chat)
    ensures !c'.isTyping
    ensures SendButtonDisabled(c') <==> AllWhitespace(c.input)
    ensures c'.(isTyping := c.isTyping) == c
  {
    c.(isTyping := false)
  }

  /** Two non-blank messages typed and sent one after the other, with no
      typing indicator up, are both accepted and both await a reply:
      `sendMessage` never raises the flag its own guard tests. */
  lemma DoubleSendNotSingleFlight(c: Chat, a: string, b: string)
    requires !c.isTyping
    requires !AllWhitespace(a) && !AllWhitespace(b)
    ensures var c2 := SendMessage(Type(SendMessage(Type(c, a)), b));
            c2.pending == c.pending + [Trim(a), Trim(b)]
            && c2.messageCount == c.messageCount + 2
  {
  }

  /** The `catch` of `sendMessage` (`handleError`): a notice picked by
      whether the error message mentions the network or a timeout. */
  function HandleError(errorMessage: string): (n: Notice)
    ensures Includes(errorMessage, "network") ==>
              n == Notice("Network connection issue", "Please check your internet connection and try again")
    ensures !Includes(errorMessage, "network") && Includes(errorMessage, "timeout") ==>
              n == Notice("Request timed out", "The server is taking too long to respond. Please try again")
    ensures (!Includes(errorMessage, "network") && !Includes(errorMessage, "timeout"))
              ==> n == Notice("Something went wrong", "Please try again or rephrase your request")
  {
    if Includes(errorMessage, "network") then
      Notice("Network connection issue", "Please check your internet connection and try again")
    else if Includes(errorMessage, "timeout") then
      Notice("Request timed out", "The server is taking too long to respond. Please try again")
    else
      Notice("Something went wrong", "Please try again or rephrase your request")
  }
  /** The notice depends only on whether "network" and "timeout" occur in
      the error message, and a mention of "network" wins over "timeout". */
  lemma HandleErrorByKeywords(a: string, b: string)
    requires Includes(a, "network") == Includes(b, "network")
    requires Includes(a, "network") || Includes(a, "timeout") == Includes(b, "timeout")
    ensures HandleError(a) == HandleError(b)
  {
  }


  /** The text `textContent` shows for a plain object. */
  const ObjectText := "[object Object]"

  /** The reply delay of the `k`-th pending send elapses: `addBotResponse`
      appends the reply as a bot bubble (a catalogue object shows as
      `[object Object]`), or the exception lands in `handleError`. The delays
      are random, so any pending send may be the next to resolve. */
  function ResolveReply(c: Chat, k: nat, r: real, now: string): (c': Chat)
    requires k < |c.pending|
    requires 0.0 <= r < 1.0
    ensures c'.pending == c.pending[..k] + c.pending[k + 1..]
    ensures var reply := GenerateResponse(c.pending[k], r, now);
            && (reply.Str? ==> c'.transcript == c.transcript + [Turn(Bot, reply.text)] && c'.notices == c.notices)
            && (reply.Obj? ==> c'.transcript == c.transcript + [Turn(Bot, ObjectText)] && c'.notices == c.notices)
            && (reply.Thrown? ==> c'.transcript == c.transcript
                                  && c'.notices == c.notices + [HandleError(ErrorMessage(reply.error))])
    ensures c'.input == c.input && c'.isTyping == c.isTyping && c'.messageCount == c.messageCount
    ensures c'.welcomeVisible == c.welcomeVisible
  {
    var rest := c.pending[..k] + c.pending[k + 1..];
    match GenerateResponse(c.pending[k], r, now)
    case Str(text) => c.(transcript := c.transcript + [Turn(Bot, text)], pending := rest)
    case Obj(_) => c.(transcript := c.transcript + [Turn(Bot, ObjectText)], pending := rest)
    case Thrown(e) => c.(notices := c.notices + [HandleError(ErrorMessage(e))], pending := rest)
  }

  /** A message no keyword list matches is answered with the text of an
      object, never with a catalogue string. */
  lemma FallbackShowsObjectText(c: Chat, k: nat, r: real, now: string)
    requires k < |c.pending|
    requires 0.0 <= r < 1.0
    requires CategoryOf(c.pending[k]) == Default
    ensures ResolveReply(c, k, r, now).transcript == c.transcript + [Turn(Bot, ObjectText)]
  {
  }

  /** The error messages of the four conversational branches contain
      neither a 'w' nor an 'm'. */
  lemma ErrorMessageLacks(property: string, ch: char)
    requires property in {"greeting", "help", "thanks", "goodbye"}
    requires ch == 'w' || ch == 'm'
    ensures Lacks(ErrorMessage(UndefinedProperty(property)), ch)
  {
    var prefix := "Cannot read properties of undefined (reading '";
    ErrorPrefixLacks(ch);
    assert Lacks(property, ch) && Lacks("')", ch);
    LacksConcat(prefix, property, ch);
    LacksConcat(prefix + property, "')", ch);
  }

  /** The fixed start of V8's message has neither a 'w' nor an 'm'. */
  lemma ErrorPrefixLacks(ch: char)
    requires ch == 'w' || ch == 'm'
    ensures Lacks("Cannot read properties of undefined (reading '", ch)
  {
    var a, b, c, d, e := "Cannot rea", "d properti", "es of unde", "fined (rea", "ding '";
    assert Lacks(a, ch) && Lacks(b, ch) && Lacks(c, ch) && Lacks(d, ch) && Lacks(e, ch);
    LacksConcat(a, b, ch);
    LacksConcat(a + b, c, ch);
    LacksConcat(a + b + c, d, ch);
    LacksConcat(a + b + c + d, e, ch);
    assert a + b + c + d + e == "Cannot read properties of undefined (reading '";
  }

  /** A greeting, a request for help, thanks or a goodbye never gets a bot
      bubble: it ends in the generic error notice. */
  lemma ConversationalBranchesShowError(c: Chat, k: nat, r: real, now: string)
    requires k < |c.pending|
    requires 0.0 <= r < 1.0
    requires CategoryOf(c.pending[k]) in {Greeting, Help, Thanks, Goodbye}
    ensures ResolveReply(c, k, r, now).transcript == c.transcript
    ensures ResolveReply(c, k, r, now).notices
            == c.notices + [Notice("Something went wrong", "Please try again or rephrase your request")]
  {
    var e := GenerateResponse(c.pending[k], r, now).error;
    ErrorMessageLacks(e.property, 'w');
    ErrorMessageLacks(e.property, 'm');
    NotIncludedWithout(ErrorMessage(e), "network", 3);
    NotIncludedWithout(ErrorMessage(e), "timeout", 2);
  }

  // ---------------------------------------------------------------- single flight, as intended

  /** At most one reply is outstanding, and the typing flag is up exactly
      while one is. */
  ghost predicate SingleFlight(c: Chat) {
    |c.pending| <= 1 && (c.isTyping <==> |c.pending| == 1)
  }

  /** The constructor's state (main.js:9-10) keeps the discipline: nothing
      is outstanding and the flag is down. */
  lemma InitialSingleFlight()
    ensures SingleFlight(Initial)
    ensures !Initial.isTyping && Initial.messageCount == 0 && Initial.pending == []
  {
  }

  /** `sendMessage` as evidently intended: the same guard, but an accepted
      send raises the typing flag until its reply arrives, so a second send
      during the delay is refused. */
  function SendSingleFlight(c: Chat): (c': Chat)
    ensures SingleFlight(c) ==> SingleFlight(c')
    ensures AllWhitespace(c.input) || c.isTyping ==> c' == c
    ensures !(AllWhitespace(c.input) || c.isTyping) ==>
              c'.isTyping && c'.transcript == c.transcript + [Turn(User, Trim(c.input))]
              && c'.messageCount == c.messageCount + 1
    ensures c'.(isTyping := c.isTyping) == SendMessage(c)
  {
    var c1 := SendMessage(c);
    if c1 == c then c else c1.(isTyping := true)
  }

  /** The reply delay elapses under the single-flight discipline: the one
      outstanding message is always answered with a bot bubble (the corrected
      reply never throws) and the flag comes down. */
  function ResolveSingleFlight(c: Chat, contextual: Contextual, r: real, now: string): (c': Chat)
    requires 0.0 <= r < 1.0
    ensures SingleFlight(c) ==> SingleFlight(c')
    ensures |c.pending| > 0 ==>
              && !c'.isTyping
              && c'.pending == c.pending[1..]
              && c'.transcript == c.transcript + [Turn(Bot, ReplyCorrected(contextual, c.pending[0], r, now))]
    ensures |c.pending| == 0 ==> c' == c
    ensures c'.input == c.input && c'.messageCount == c.messageCount
    ensures c'.notices == c.notices && c'.welcomeVisible == c.welcomeVisible
  {
    if |c.pending| == 0 then c
    else
      c.(transcript := c.transcript + [Turn(Bot, ReplyCorrected(contextual, c.pending[0], r, now))],
         pending := c.pending[1..],
         isTyping := false)
  }

  /** Under the corrected send, the second of two back-to-back sends is
      ignored: one message awaits a reply, not two. */
  lemma SecondSendIgnored(c: Chat, a: string, b: string)
    requires SingleFlight(c) && !c.isTyping
    requires !AllWhitespace(a)
    ensures var c2 := SendSingleFlight(Type(SendSingleFlight(Type(c, a)), b));
            c2.pending == [Trim(a)] && c2.messageCount == c.messageCount + 1
  {
  }
}

=== FILE: Classify.dfy ===
/**
 * Keyword classification as the widget does it everywhere: a fixed list of
 * rules, each a category with a keyword list, tried in order; the first rule
 * one of whose keywords is a substring of the text decides the category.
 */
module Classify {
  import opened Text

  datatype Rule<L> = Rule(category: L, keywords: seq<string>)

  /** `words.some(word => text.includes(word))`: some keyword of the list
      occurs in the text; never true of the empty list. */
  function ContainsWords(text: string, words: seq<string>): (b: bool)
    ensures b <==> exists j :: 0 <= j < |words| && Includes(text, words[j])
    ensures |words| == 0 ==> !b
  {
    if |words| == 0 then false
    else Includes(text, words[0]) || ContainsWords(text, words[1..])
  }

  /** A three-keyword list matches exactly when one of the three occurs. */
  lemma ContainsThreeWords(text: string, a: string, b: string, c: string)
    ensures ContainsWords(text, [a, b, c]) <==> Includes(text, a) || Includes(text, b) || Includes(text, c)
  {
    assert [a, b, c][1..] == [b, c];
    assert [b, c][1..] == [c];
    assert [c][1..] == [];
    assert ContainsWords(text, [c]) == (Includes(text, c) || ContainsWords(text, []));
    assert ContainsWords(text, [b, c]) == (Includes(text, b) || ContainsWords(text, [c]));
  }

  /** `ContainsWords` in terms of occurrence positions rather than the scan. */
  lemma ContainsWordsSpec(text: string, words: seq<string>)
    ensures ContainsWords(text, words) <==> exists j :: 0 <= j < |words| && OccursIn(words[j], text)
  {
    forall j | 0 <= j < |words| {
      IncludesSpec(text, words[j]);
    }
  }

  predicate Matches<L>(text: string, rule: Rule<L>) {
    ContainsWords(text, rule.keywords)
  }

  /** The index of the first rule that matches `text`, or `|rules|` when
      none does. */
  function FirstMatch<L>(text: string, rules: seq<Rule<L>>): (k: nat)
    ensures k <= |rules|
    ensures forall j :: 0 <= j < k ==> !Matches(text, rules[j])
    ensures k < |rules| ==> Matches(text, rules[k])
  {
    if |rules| == 0 then 0
    else if Matches(text, rules[0]) then 0
    else 1 + FirstMatch(text, rules[1..])
  }

  /** The category of the first matching rule, or `fallback` when none matches. */
  function Categorize<L>(text: string, rules: seq<Rule<L>>, fallback: L): L {
    var k := FirstMatch(text, rules);
    if k < |rules| then rules[k].category else fallback
  }

  /** No two rules share a category and the fallback is none of them. */
  ghost predicate DistinctCategories<L>(rules: seq<Rule<L>>, fallback: L) {
    (forall i, j :: 0 <= i < j < |rules| ==> rules[i].category != rules[j].category)
    && (forall i :: 0 <= i < |rules| ==> rules[i].category != fallback)
  }

  /** With distinct categories, rule `k` decides the category exactly when it matches
      and no earlier rule does: the priority order is strict. */
  lemma CategorizeIsFirstMatch<L>(text: string, rules: seq<Rule<L>>, fallback: L, k: nat)
    requires DistinctCategories(rules, fallback)
    requires k < |rules|
    ensures Categorize(text, rules, fallback) == rules[k].category
        <==> Matches(text, rules[k]) && forall j :: 0 <= j < k ==> !Matches(text, rules[j])
  {
    var m := FirstMatch(text, rules);
    if Categorize(text, rules, fallback) == rules[k].category {
      assert m == k;
    }
  }

  /** With distinct categories, the fallback is chosen exactly when no rule
      matches. */
  lemma CategorizeIsFallback<L>(text: string, rules: seq<Rule<L>>, fallback: L)
    requires DistinctCategories(rules, fallback)
    ensures Categorize(text, rules, fallback) == fallback
        <==> forall j :: 0 <= j < |rules| ==> !Matches(text, rules[j])
  {
  }
}

=== FILE: Gesture.dfy ===
/**
 * The swipe rule of `initGestureSupport` (enhanced-features.js): a touch
 * that moves mostly sideways by more than 50 pixels opens the conversation
 * history (finger moved left) or the settings (finger moved right).
 */
module Gesture {
  import opened Wrappers

  datatype SwipeAction = ShowHistory | OpenSettings

  const SwipeThreshold := 50

  function Abs(x: int): nat {
    if x < 0 then -x else x
  }

  /** The action of a touch from (startX, startY) to (endX, endY), if any. */
  function SwipeActionFor(startX: int, startY: int, endX: int, endY: int): (a: Option<SwipeAction>)
    ensures a.Some? <==> Abs(startX - endX) > Abs(startY - endY) && Abs(startX - endX) > SwipeThreshold
    ensures a == Some(ShowHistory) <==> a.Some? && endX < startX
    ensures a == Some(OpenSettings) <==> a.Some? && endX > startX
  {
    var xDiff := startX - endX;
    var yDiff := startY - endY;
    if Abs(xDiff) > Abs(yDiff) && Abs(xDiff) > SwipeThreshold then
      if xDiff > 0 then Some(ShowHistory) else Some(OpenSettings)
    else None
  }

  /** The same stroke drawn backwards triggers the other action, or none if
      the forward one triggered none. */
  lemma ReversedSwipe(startX: int, startY: int, endX: int, endY: int)
    ensures var forward := SwipeActionFor(startX, startY, endX, endY);
            var backward := SwipeActionFor(endX, endY, startX, startY);
            && (forward == None <==> backward == None)
            && (forward == Some(ShowHistory) <==> backward == Some(OpenSettings))
  {
  }

  /** Moving the whole stroke does not change its action. */
  lemma SwipeIsTranslationInvariant(startX: int, startY: int, endX: int, endY: int, dx: int, dy: int)
    ensures SwipeActionFor(startX + dx, startY + dy, endX + dx, endY + dy)
         == SwipeActionFor(startX, startY, endX, endY)
  {
  }
}

=== FILE: OfflineQueue.dfy ===
/**
 * The offline message queue of `PremiumFeatures` (enhanced-features.js):
 * messages are queued while offline and handed over, in order, when the
 * connection returns. The hand-over only logs them; here it is returned.
 */
module OfflineQueue {

  datatype Queue = Queue(isOnline: bool, messageQueue: seq<string>)

  /** `initOfflineCapability`: an empty queue and the browser's online flag.
      Starting offline also runs `handleNetworkChange(false)`, which leaves
      this state as it is; its notification is `StartNotices`. */
  function Init(navigatorOnline: bool): (q: Queue)
    ensures Valid(q) && q.messageQueue == []
    ensures q.isOnline == navigatorOnline
    ensures !navigatorOnline ==> HandleNetworkChange(q, false).0 == q
  {
    Queue(navigatorOnline, [])
  }

  /** The notifications `initOfflineCapability` shows: none when the browser
      is online, and otherwise the one `handleNetworkChange(false)` gives,
      "You are offline. Messages will be queued." */
  function StartNotices(navigatorOnline: bool): (ns: seq<Notification>)
    ensures ns == [] <==> navigatorOnline
    ensures !navigatorOnline ==> ns == [HandleNetworkChange(Init(navigatorOnline), false).2]
    ensures !navigatorOnline ==> ns == [NowOffline]
  {
    if navigatorOnline then [] else [HandleNetworkChange(Init(false), false).2]
  }

  /** A session that starts offline queues its first message, and one that
      starts online does not. */
  lemma StartOfflineQueues(navigatorOnline: bool, message: string)
    ensures QueueMessage(Init(navigatorOnline), message).1 <==> !navigatorOnline
    ensures !navigatorOnline ==> QueueMessage(Init(navigatorOnline), message).0.messageQueue == [message]
  {
  }

  /** Nothing waits in the queue while online. */
  ghost predicate Valid(q: Queue) {
    q.isOnline ==> q.messageQueue == []
  }

  /** `queueMessage(message)`: appended and `true` exactly when offline;
      online, the queue is left as it is and the answer is `false`. */
  function QueueMessage(q: Queue, message: string): (res: (Queue, bool))
    ensures res.1 <==> !q.isOnline
    ensures res.1 ==> res.0 == q.(messageQueue := q.messageQueue + [message])
    ensures !res.1 ==> res.0 == q
    ensures Valid(q) ==> Valid(res.0)
  {
    if !q.isOnline then (q.(messageQueue := q.messageQueue + [message]), true)
    else (q, false)
  }

  /** The notification `handleNetworkChange` shows. */
  datatype Notification = BackOnlineSending | BackOnline | NowOffline

  /** `handleNetworkChange(online)`: records the flag; coming online hands
      over every queued message, in queue order, and empties the queue;
      going offline keeps the queue. */
  function HandleNetworkChange(q: Queue, online: bool): (res: (Queue, seq<string>, Notification))
    ensures res.0.isOnline == online
    ensures online ==> res.0.messageQueue == [] && res.1 == q.messageQueue
    ensures !online ==> res.0.messageQueue == q.messageQueue && res.1 == []
    ensures res.2 == BackOnlineSending <==> online && |q.messageQueue| > 0
    ensures res.2 == NowOffline <==> !online
    ensures Valid(res.0)
  {
    if online then
      (Queue(true, []), q.messageQueue, if |q.messageQueue| > 0 then BackOnlineSending else BackOnline)
    else (q.(isOnline := false), [], NowOffline)
  }

  /** What can happen to the queue: a message is offered, or the browser
      reports a change of connectivity. */
  datatype Event = Offer(message: string) | Network(online: bool)

  /** Runs a sequence of events; returns the final queue, the messages handed
      over on reconnection and the messages accepted into the queue. */
  function Run(q: Queue, events: seq<Event>): (Queue, seq<string>, seq<string>)
    decreases |events|
  {
    if |events| == 0 then (q, [], [])
    else
      match events[0]
      case Offer(m) =>
        var (q1, queued) := QueueMessage(q, m);
        var tail := Run(q1, events[1..]);
        (tail.0, tail.1, (if queued then [m] else []) + tail.2)
      case Network(b) =>
        var step := HandleNetworkChange(q, b);
        var tail := Run(step.0, events[1..]);
        (tail.0, step.1 + tail.1, tail.2)
  }

  /** Nothing is lost, duplicated or reordered: what was queued at the start
      followed by everything accepted equals everything handed over followed
      by what is still queued. */
  lemma {:induction false} RunConservesMessages(q: Queue, events: seq<Event>)
    ensures var (q', sent, accepted) := Run(q, events);
            q.messageQueue + accepted == sent + q'.messageQueue
    decreases |events|
  {
    if |events| > 0 {
      match events[0]
      case Offer(m) =>
        var (q1, queued) := QueueMessage(q, m);
        RunConservesMessages(q1, events[1..]);
        var tail := Run(q1, events[1..]);
        assert q1.messageQueue == q.messageQueue + (if queued then [m] else []);
        assert q.messageQueue + ((if queued then [m] else []) + tail.2)
            == q1.messageQueue + tail.2;
      case Network(b) =>
        var step := HandleNetworkChange(q, b);
        RunConservesMessages(step.0, events[1..]);
        var tail := Run(step.0, events[1..]);
        assert q.messageQueue == step.1 + step.0.messageQueue;
        assert q.messageQueue + tail.2 == step.1 + (step.0.messageQueue + tail.2);
    }
  }

  /** The queue is empty whenever the connection is up, after any run. */
  lemma {:induction false} RunKeepsValid(q: Queue, events: seq<Event>)
    requires Valid(q)
    ensures Valid(Run(q, events).0)
    decreases |events|
  {
    if |events| > 0 {
      match events[0]
      case Offer(m) =>
        RunKeepsValid(QueueMessage(q, m).0, events[1..]);
      case Network(b) =>
        RunKeepsValid(HandleNetworkChange(q, b).0, events[1..]);
    }
  }
}

=== FILE: PromptHistory.dfy ===
/**
 * Prompt recall of `PremiumFeatures` (enhanced-features.js): the user's sent
 * messages are remembered in `chatHistory`, and ArrowUp walks back through
 * them with `historyIndex`.
 */
module PromptHistory {
  import opened Wrappers

  datatype History = History(chatHistory: seq<string>, historyIndex: int)

  /** Set up by `initKeyboardShortcuts`: no messages, index -1. */
  const Initial := History([], -1)

  /** The index is -1 until the first message is remembered and afterwards
      stays between 0 and the number of messages, inclusive. */
  ghost predicate Valid(h: History) {
    if |h.chatHistory| == 0 then h.historyIndex == -1
    else 0 <= h.historyIndex <= |h.chatHistory|
  }

  /** The state `initKeyboardShortcuts` sets up satisfies the index
      invariant. */
  lemma InitialValid()
    ensures Valid(Initial)
    ensures Initial.chatHistory == [] && Initial.historyIndex == -1
  {
  }

  /** The `bgpt-message-sent` handler: a message from the user is appended
      and the index moves just past it; other senders change nothing. */
  function MessageSent(h: History, sender: string, message: string): (h': History)
    ensures Valid(h') || (sender != "user" && h' == h)
    ensures sender == "user" ==> h'.chatHistory == h.chatHistory + [message]
                                 && h'.historyIndex == |h'.chatHistory|
    ensures sender != "user" ==> h' == h
  {
    if sender == "user" then
      var hist := h.chatHistory + [message];
      History(hist, |hist|)
    else h
  }

  /** `showPreviousMessage`: above 0 the index steps back by one and the
      message there is put into the input; at 0 (or -1) nothing happens. */
  function ShowPreviousMessage(h: History): (res: (History, Option<string>))
    ensures Valid(h) ==> Valid(res.0)
    ensures h.historyIndex > 0 ==> res.0 == h.(historyIndex := h.historyIndex - 1)
    ensures h.historyIndex <= 0 ==> res == (h, None)
    ensures Valid(h) && h.historyIndex > 0 ==> res.1 == Some(h.chatHistory[h.historyIndex - 1])
  {
    if h.historyIndex > 0 then
      var i := h.historyIndex - 1;
      // Out of range only if the index was moved past the end, which a
      // valid history rules out; JavaScript would read `undefined`.
      (h.(historyIndex := i), if i < |h.chatHistory| then Some(h.chatHistory[i]) else None)
    else (h, None)
  }

  /** Pressing ArrowUp `k` times; the messages shown, in order. */
  function PressUp(h: History, k: nat): (History, seq<string>)
    decreases k
  {
    if k == 0 then (h, [])
    else
      var step := ShowPreviousMessage(h);
      var tail := PressUp(step.0, k - 1);
      (tail.0, (if step.1.Some? then [step.1.value] else []) + tail.1)
  }

  /** Right after a message is sent, `k` presses of ArrowUp (no more than the
      number of remembered messages) show the last `k` messages from newest
      to oldest and leave the index `k` places back. */
  lemma {:induction false} PressUpWalksBack(h: History, k: nat)
    requires Valid(h)
    requires k <= h.historyIndex
    ensures PressUp(h, k).0 == h.(historyIndex := h.historyIndex - k)
    ensures |PressUp(h, k).1| == k
    ensures forall j :: 0 <= j < k ==> PressUp(h, k).1[j] == h.chatHistory[h.historyIndex - 1 - j]
    decreases k
  {
    if k > 0 {
      var h1 := ShowPreviousMessage(h).0;
      PressUpWalksBack(h1, k - 1);
      assert PressUp(h, k).1 == [h.chatHistory[h.historyIndex - 1]] + PressUp(h1, k - 1).1;
    }
  }

  /** Once the index reaches 0, further presses change nothing. */
  lemma {:induction false} PressUpStopsAtOldest(h: History, k: nat)
    requires h.historyIndex <= 0
    ensures PressUp(h, k) == (h, [])
    decreases k
  {
    if k > 0 {
      PressUpStopsAtOldest(h, k - 1);
      assert ShowPreviousMessage(h).1 == None;
      assert ShowPreviousMessage(h).0 == h;
      assert PressUp(h, k).1 == [] + PressUp(h, k - 1).1;
    }
  }
}

=== FILE: Responses.dfy ===
/**
 * The reply side of `AdvancedChatInterface` (main.js): the canned response
 * catalogue, the keyword classifier behind `generateResponse`, the prompt
 * classifier behind `generatePromptResponse`, and `getRandomResponse` with
 * the random draw passed in as `r`.
 */
module Responses {
  import opened Wrappers
  import opened Text
  import opened Classify

  /** One element of the constructor's `this.responses`: a `type` tag and
      markdown-style `content`. */
  datatype Entry = Entry(kind: string, content: string)

  const Catalogue: seq<Entry> := [
    Entry("greeting",
      "Hello! I'm BGPT, Dr. Brett's AI Coaching Assistant. "
      + "I'm here to help you elevate your game! \U{1F680}"),
    Entry("presence",
      "**Presence** is about being fully engaged in the current moment. "
      + "Here are the key aspects:\n"
      + "\n"
      + "\U{2022} Mindful awareness of your surroundings\n"
      + "\U{2022} Focus on immediate actions and goals\n"
      + "\U{2022} Letting go of past and future concerns\n"
      + "\n"
      + "Would you like to learn specific techniques for improving presence?"),
    Entry("goals",
      "Setting tough goals requires a strategic approach:\n"
      + "\n"
      + "1. **Dream Big**: Envision your ultimate achievement\n"
      + "2. **Break it Down**: Create smaller, manageable milestones\n"
      + "3. **Timeline**: Set specific deadlines for each step\n"
      + "4. **Accountability**: Share your goals with others\n"
      + "5. **Track Progress**: Monitor and celebrate small wins\n"
      + "\n"
      + "What type of goal would you like to work on?"),
    Entry("fundamentals",
      "The **5 Fundamentals** are core principles for success:\n"
      + "\n"
      + "1. **Mindset**: Cultivate a growth-oriented perspective\n"
      + "2. **Discipline**: Build consistent, positive habits\n"
      + "3. **Focus**: Maintain clarity on priorities\n"
      + "4. **Resilience**: Bounce back from setbacks\n"
      + "5. **Excellence**: Pursue continuous improvement\n"
      + "\n"
      + "Which fundamental would you like to explore further?")
  ]

  /** The contents of the catalogue, in catalogue order. */
  function CatalogueContents(): (cs: seq<string>)
    ensures |cs| == |Catalogue|
    ensures forall i :: 0 <= i < |cs| ==> cs[i] == Catalogue[i].content
  {
    seq(|Catalogue|, i requires 0 <= i < |Catalogue| => Catalogue[i].content)
  }

  // ---------------------------------------------------------------- random choice

  /** `Math.floor(r * n)` for a draw `r` of `Math.random()`, which lies in
      [0, 1): always a valid index of a non-empty list. */
  function RandomIndex(n: nat, r: real): (i: int)
    requires 0.0 <= r < 1.0
    ensures n > 0 ==> 0 <= i < n
    ensures n == 0 ==> i == 0
  {
    ScaledFloor(r, n);
    (r * n as real).Floor
  }

  lemma ScaledFloor(r: real, n: nat)
    requires 0.0 <= r < 1.0
    ensures n > 0 ==> 0 <= (r * n as real).Floor < n
    ensures n == 0 ==> (r * n as real).Floor == 0
  {
    if n > 0 {
      ScaledBelow(r, n as real);
    }
  }

  /** A fraction below one of a positive amount stays below that amount. */
  lemma ScaledBelow(r: real, n: real)
    requires 0.0 <= r < 1.0 && n > 0.0
    ensures 0.0 <= r * n < n
  {
    ProductPositive(1.0 - r, n);
    assert n - r * n == (1.0 - r) * n;
  }

  lemma ProductPositive(a: real, b: real)
    requires a > 0.0 && b > 0.0
    ensures a * b > 0.0
  {
  }

  /** Every index of a list of length `n` is drawn by some `r`, so no
      candidate is unreachable. */
  lemma RandomIndexReaches(n: nat, i: nat)
    requires i < n
    ensures 0.0 <= i as real / n as real < 1.0
    ensures RandomIndex(n, i as real / n as real) == i
  {
    var r := i as real / n as real;
    assert r * n as real == i as real;
    assert r < 1.0 by {
      assert (1.0 - r) * n as real == n as real - i as real;
    }
  }

  /** `getRandomResponse(list)`: the element at the drawn index; an empty
      list yields `undefined`, modelled as `None`. */
  function GetRandomResponse<T>(candidates: seq<T>, r: real): (o: Option<T>)
    requires 0.0 <= r < 1.0
    ensures o.None? <==> |candidates| == 0
    ensures o.Some? ==> o.value in candidates
  {
    var i := RandomIndex(|candidates|, r);
    if i < |candidates| then Some(candidates[i]) else None
  }

  // ---------------------------------------------------------------- generateResponse

  /** The branches of `generateResponse`, in the order they are tried, and
      the fall-through to the catalogue. */
  datatype Category = Greeting | Help | Thanks | Goodbye | Weather | Time | Name | Joke | Default

  const ResponseRules: seq<Rule<Category>> := [
    Rule(Greeting, ["hello", "hi", "hey", "greetings", "good morning", "good afternoon", "good evening"]),
    Rule(Help, ["help", "what can you do", "capabilities", "assist", "support"]),
    Rule(Thanks, ["thank you", "thanks", "appreciate", "grateful"]),
    Rule(Goodbye, ["bye", "goodbye", "see you", "farewell", "take care"]),
    Rule(Weather, ["weather", "temperature", "climate"]),
    Rule(Time, ["time", "clock", "hour", "minute"]),
    Rule(Name, ["name", "who are you", "what are you"]),
    Rule(Joke, ["joke", "funny", "humor", "laugh"])
  ]

  /** The branch `generateResponse` takes: it lower-cases the message and
      tries the keyword lists in order. */
  function CategoryOf(userMessage: string): (c: Category)
    ensures c == Default <==> forall j :: 0 <= j < |ResponseRules| ==> !Matches(Lower(userMessage), ResponseRules[j])
    ensures c != Default ==>
              exists k :: 0 <= k < |ResponseRules| && ResponseRules[k].category == c
                          && Matches(Lower(userMessage), ResponseRules[k])
                          && forall j :: 0 <= j < k ==> !Matches(Lower(userMessage), ResponseRules[j])
  {
    ResponseRulesDistinct();
    CategorizeIsFallback(Lower(userMessage), ResponseRules, Default);
    Categorize(Lower(userMessage), ResponseRules, Default)
  }

  lemma ResponseRulesDistinct()
    ensures DistinctCategories(ResponseRules, Default)
  {
  }

  /** Branch `k` is taken exactly when one of its keywords occurs in the
      lower-cased message and no keyword of an earlier branch does. */
  lemma CategoryPriority(userMessage: string, k: nat)
    requires k < |ResponseRules|
    ensures CategoryOf(userMessage) == ResponseRules[k].category
        <==> Matches(Lower(userMessage), ResponseRules[k])
             && forall j :: 0 <= j < k ==> !Matches(Lower(userMessage), ResponseRules[j])
  {
    CategorizeIsFirstMatch(Lower(userMessage), ResponseRules, Default, k);
  }

  /** The catalogue fall-through is taken exactly when no keyword list
      matches. */
  lemma CategoryDefault(userMessage: string)
    ensures CategoryOf(userMessage) == Default
        <==> forall j :: 0 <= j < |ResponseRules| ==> !Matches(Lower(userMessage), ResponseRules[j])
  {
    CategorizeIsFallback(Lower(userMessage), ResponseRules, Default);
  }

  /** Classification ignores ASCII case: a message and its lower-cased form
      take the same branch. */
  lemma CategoryIgnoresCase(userMessage: string)
    ensures CategoryOf(Lower(userMessage)) == CategoryOf(userMessage)
  {
    LowerIdempotent(userMessage);
  }

  /** An exception raised while producing a reply. */
  datatype JsError = UndefinedProperty(property: string)

  /** The message V8 gives the `TypeError` of reading `property` of
      `undefined`. */
  function ErrorMessage(e: JsError): (message: string)
    ensures OccursIn(e.property, message)
  {
    var prefix := "Cannot read properties of undefined (reading '";
    var message := prefix + e.property + "')";
    assert OccursAt(e.property, message, |prefix|);
    message
  }

  /** What `generateResponse` returns: a string, a catalogue object (the
      fall-through returns an element of `this.responses` itself), or the
      exception it throws. */
  datatype Reply = Str(text: string) | Obj(entry: Entry) | Thrown(error: JsError)

  const WeatherReply :=
    "I don't have access to real-time weather data, "
    + "but I'd recommend checking a reliable weather service for current conditions. "
    + "However, I'd be happy to discuss climate patterns, weather phenomena, "
    + "or help you plan for different weather conditions! \U{1F324}\U{FE0F}"

  const NameReply :=
    "I'm BGPT, your advanced AI assistant! "
    + "I'm designed to be helpful, informative, and engaging. "
    + "I love learning about new topics and helping solve problems. "
    + "Think of me as your intelligent digital companion! \U{1F916}\U{2728}"

  const Jokes: seq<string> := [
    "Why don't scientists trust atoms? Because they make up everything! \U{1F604}",
    "I told my computer a joke about UDP... but I'm not sure if it got it! \U{1F4BB}\U{1F602}",
    "Why did the AI go to therapy? It had too many deep learning issues! \U{1F916}\U{1F605}"
  ]

  /** The time reply; `now` is the device clock as `toLocaleString` renders it. */
  function TimeReply(now: string): string {
    "According to your device, it's currently " + now
    + ". Is there anything time-related I can help you with? "
    + "Perhaps scheduling, time zones, or time management tips? \U{23F0}"
  }

  /** The reply of one branch of `generateResponse` as written: the four
      conversational branches read a property of `this.contextualResponses`,
      which the constructor never assigns, and so throw; the fall-through
      hands back a catalogue object, not a string. */
  function ReplyFor(category: Category, r: real, now: string): (reply: Reply)
    requires 0.0 <= r < 1.0
    ensures reply.Thrown? <==> category in {Greeting, Help, Thanks, Goodbye}
    ensures reply.Obj? <==> category == Default
    ensures reply.Obj? ==> reply.entry in Catalogue
    ensures category == Joke ==> reply.Str? && reply.text in Jokes
  {
    match category
    case Greeting => Thrown(UndefinedProperty("greeting"))
    case Help => Thrown(UndefinedProperty("help"))
    case Thanks => Thrown(UndefinedProperty("thanks"))
    case Goodbye => Thrown(UndefinedProperty("goodbye"))
    case Weather => Str(WeatherReply)
    case Time => Str(TimeReply(now))
    case Name => Str(NameReply)
    case Joke => Str(RandomJoke(r))
    case Default => Obj(RandomEntry(r))
  }

  /** The joke branch's draw: never `undefined`, since the list is not empty. */
  function RandomJoke(r: real): (joke: string)
    requires 0.0 <= r < 1.0
    ensures joke in Jokes
  {
    assert |Jokes| == 3;
    GetRandomResponse(Jokes, r).value
  }

  /** The fall-through's draw from the catalogue. */
  function RandomEntry(r: real): (entry: Entry)
    requires 0.0 <= r < 1.0
    ensures entry in Catalogue
  {
    assert |Catalogue| == 4;
    GetRandomResponse(Catalogue, r).value
  }

  /** `generateResponse(userMessage)`: classify, then answer from the branch. */
  function GenerateResponse(userMessage: string, r: real, now: string): (reply: Reply)
    requires 0.0 <= r < 1.0
    ensures reply.Thrown? <==> CategoryOf(userMessage) in {Greeting, Help, Thanks, Goodbye}
    ensures reply.Obj? <==> CategoryOf(userMessage) == Default
    ensures reply.Obj? ==> reply.entry in Catalogue
    ensures CategoryOf(userMessage) == Joke ==> reply.Str? && reply.text in Jokes
  {
    ReplyFor(CategoryOf(userMessage), r, now)
  }

  /** A friendly greeting, the case the greeting branch exists for, throws. */
  lemma HelloThrows(r: real, now: string)
    requires 0.0 <= r < 1.0
    ensures CategoryOf("Hello there") == Greeting
    ensures GenerateResponse("Hello there", r, now) == Thrown(UndefinedProperty("greeting"))
  {
    assert Lower("Hello there") == "hello there";
    assert "hello" <= "hello there";
    assert Matches("hello there", ResponseRules[0]);
  }

  /** Matching is by substring, not by word: "this" contains "hi", so the
      question below is classified as a greeting. */
  lemma SubstringNotWord()
    ensures CategoryOf("what is this") == Greeting
  {
    var t := "what is this";
    assert Lower(t) == t;
    assert "hi" <= t[9..];
    assert Includes(t[9..], "hi");
    assert Includes(t, "hi");
    assert ContainsWords(t, ResponseRules[0].keywords);
  }

  // ---------------------------------------------------------------- generatePromptResponse

  /** `entries.find(e => e.type === kind)`: the first entry of that kind. */
  function Find(entries: seq<Entry>, kind: string): (o: Option<Entry>)
    ensures o.None? <==> forall i :: 0 <= i < |entries| ==> entries[i].kind != kind
    ensures o.Some? ==> exists i :: 0 <= i < |entries| && entries[i] == o.value && entries[i].kind == kind
                          && forall j :: 0 <= j < i ==> entries[j].kind != kind
  {
    if |entries| == 0 then None
    else if entries[0].kind == kind then Some(entries[0])
    else
      var o := Find(entries[1..], kind);
      assert o.Some? ==> exists i :: 1 <= i < |entries| && entries[i] == o.value && entries[i].kind == kind
                          && forall j :: 0 <= j < i ==> entries[j].kind != kind by {
        if o.Some? {
          var i :| 0 <= i < |entries[1..]| && entries[1..][i] == o.value && entries[1..][i].kind == kind
                   && forall j :: 0 <= j < i ==> entries[1..][j].kind != kind;
          assert entries[i + 1] == o.value;
          forall j | 0 <= j < i + 1 ensures entries[j].kind != kind {
            if j > 0 { assert entries[j] == entries[1..][j - 1]; }
          }
        }
      }
      o
  }

  /** The catalogue kind a suggested prompt is answered from: case-sensitive
      tests for "Presence", "goal" and "Fundamentals", else the greeting. */
  const PromptRules: seq<Rule<string>> := [
    Rule("presence", ["Presence"]),
    Rule("goals", ["goal"]),
    Rule("fundamentals", ["Fundamentals"])
  ]

  function PromptKind(prompt: string): (kind: string)
    ensures kind == "greeting" <==> forall j :: 0 <= j < |PromptRules| ==> !Matches(prompt, PromptRules[j])
    ensures kind != "greeting" ==>
              exists k :: 0 <= k < |PromptRules| && PromptRules[k].category == kind
                          && Matches(prompt, PromptRules[k])
                          && forall j :: 0 <= j < k ==> !Matches(prompt, PromptRules[j])
  {
    assert DistinctCategories(PromptRules, "greeting");
    CategorizeIsFallback(prompt, PromptRules, "greeting");
    Categorize(prompt, PromptRules, "greeting")
  }

  /** `generatePromptResponse(prompt)`: total, and always the content of the
      first catalogue entry whose kind the prompt selects. */
  function GeneratePromptResponse(prompt: string): (response: string)
    ensures exists i :: 0 <= i < |Catalogue| && Catalogue[i].kind == PromptKind(prompt)
                        && response == Catalogue[i].content
    ensures response in CatalogueContents()
  {
    var kind := PromptKind(prompt);
    assert kind in {"presence", "goals", "fundamentals", "greeting"};
    var found := Find(Catalogue, kind);
    assert Catalogue[0].kind == "greeting" && Catalogue[1].kind == "presence";
    assert Catalogue[2].kind == "goals" && Catalogue[3].kind == "fundamentals";
    found.value.content
  }

  /** The prompt rules are tried in order and the greeting is the fallback. */
  lemma PromptPriority(prompt: string, k: nat)
    requires k < |PromptRules|
    ensures PromptKind(prompt) == PromptRules[k].category
        <==> Matches(prompt, PromptRules[k]) && forall j :: 0 <= j < k ==> !Matches(prompt, PromptRules[j])
    ensures PromptKind(prompt) == "greeting"
        <==> forall j :: 0 <= j < |PromptRules| ==> !Matches(prompt, PromptRules[j])
  {
    assert DistinctCategories(PromptRules, "greeting");
    CategorizeIsFirstMatch(prompt, PromptRules, "greeting", k);
    CategorizeIsFallback(prompt, PromptRules, "greeting");
  }

  /** The prompt test is case-sensitive: lower-case "presence" is answered
      with the greeting. */
  lemma PromptIsCaseSensitive()
    ensures GeneratePromptResponse("presence") == Catalogue[0].content
  {
    var p, a, b := "presence", "pres", "ence";
    assert p == a + b;
    assert Lacks(a, 'P') && Lacks(b, 'P');
    assert Lacks(a, 'g') && Lacks(b, 'g');
    assert Lacks(a, 'F') && Lacks(b, 'F');
    LacksConcat(a, b, 'P');
    LacksConcat(a, b, 'g');
    LacksConcat(a, b, 'F');
    NotIncludedWithout(p, "Presence", 0);
    NotIncludedWithout(p, "goal", 0);
    NotIncludedWithout(p, "Fundamentals", 0);
    assert !Matches(p, PromptRules[0]) && !Matches(p, PromptRules[1]) && !Matches(p, PromptRules[2]);
    PromptPriority(p, 0);
    assert PromptKind(p) == "greeting";
  }

  // ---------------------------------------------------------------- the intended reply

  /** The candidate lists the four conversational branches expect to find in
      `this.contextualResponses`. Their wording is not in the source, so
      they are a parameter. */
  datatype Contextual = Contextual(greeting: seq<string>, help: seq<string>,
                                   thanks: seq<string>, goodbye: seq<string>)

  /** The reply pool of each branch. */
  function Candidates(contextual: Contextual, category: Category, now: string): seq<string> {
    match category
    case Greeting => contextual.greeting
    case Help => contextual.help
    case Thanks => contextual.thanks
    case Goodbye => contextual.goodbye
    case Weather => [WeatherReply]
    case Time => [TimeReply(now)]
    case Name => [NameReply]
    case Joke => Jokes
    case Default => CatalogueContents()
  }

  /** One branch as evidently intended: a string drawn from the branch's
      own pool, or from the catalogue contents when that pool is empty. */
  function CorrectedFor(contextual: Contextual, category: Category, r: real, now: string): (text: string)
    requires 0.0 <= r < 1.0
    ensures var pool := Candidates(contextual, category, now);
            if |pool| > 0 then text in pool else text in CatalogueContents()
  {
    var pool := Candidates(contextual, category, now);
    if |pool| > 0 then pool[RandomIndex(|pool|, r)]
    else CatalogueContents()[RandomIndex(|Catalogue|, r)]
  }

  /** `generateResponse` as evidently intended: always a string, drawn from
      the pool of the branch the message selects. */
  function ReplyCorrected(contextual: Contextual, userMessage: string, r: real, now: string): (text: string)
    requires 0.0 <= r < 1.0
    ensures var pool := Candidates(contextual, CategoryOf(userMessage), now);
            if |pool| > 0 then text in pool else text in CatalogueContents()
  {
    CorrectedFor(contextual, CategoryOf(userMessage), r, now)
  }

  lemma CorrectedForAgrees(contextual: Contextual, category: Category, r: real, now: string)
    requires 0.0 <= r < 1.0
    ensures ReplyFor(category, r, now).Str? ==> CorrectedFor(contextual, category, r, now) == ReplyFor(category, r, now).text
    ensures ReplyFor(category, r, now).Obj? ==> CorrectedFor(contextual, category, r, now) == ReplyFor(category, r, now).entry.content
  {
    if category == Joke {
      JokeAgrees(contextual, r, now);
    } else if category == Default {
      EntryAgrees(contextual, r, now);
    } else if category in {Weather, Time, Name} {
      FixedAgrees(contextual, category, r, now);
    }
  }

  /** The weather, time and name branches have a single reply, which both
      versions give. */
  lemma FixedAgrees(contextual: Contextual, category: Category, r: real, now: string)
    requires 0.0 <= r < 1.0
    requires category in {Weather, Time, Name}
    ensures ReplyFor(category, r, now).Str?
    ensures CorrectedFor(contextual, category, r, now) == ReplyFor(category, r, now).text
  {
  }

  /** The joke branch draws the same joke either way. */
  lemma JokeAgrees(contextual: Contextual, r: real, now: string)
    requires 0.0 <= r < 1.0
    ensures CorrectedFor(contextual, Joke, r, now) == ReplyFor(Joke, r, now).text
  {
    assert |Jokes| == 3;
  }

  /** The fall-through draws the same catalogue entry either way. */
  lemma EntryAgrees(contextual: Contextual, r: real, now: string)
    requires 0.0 <= r < 1.0
    ensures CorrectedFor(contextual, Default, r, now) == ReplyFor(Default, r, now).entry.content
  {
    assert |Catalogue| == 4;
    assert CatalogueContents()[RandomIndex(4, r)] == Catalogue[RandomIndex(4, r)].content;
  }

  /** Wherever the code as written produces a reply, the corrected reply is
      that reply: the same string, or the `content` of the catalogue object. */
  lemma ReplyCorrectedAgrees(contextual: Contextual, userMessage: string, r: real, now: string)
    requires 0.0 <= r < 1.0
    ensures GenerateResponse(userMessage, r, now).Str?
        ==> ReplyCorrected(contextual, userMessage, r, now) == GenerateResponse(userMessage, r, now).text
    ensures GenerateResponse(userMessage, r, now).Obj?
        ==> ReplyCorrected(contextual, userMessage, r, now) == GenerateResponse(userMessage, r, now).entry.content
  {
    CorrectedForAgrees(contextual, CategoryOf(userMessage), r, now);
  }
}

=== FILE: Share.dfy ===
/**
 * The transcript text `PremiumFeatures` (enhanced-features.js) builds for
 * sharing, and the shortened labels of the conversation-history list.
 */
module Share {
  import opened Wrappers

  /** One element of `messageHistory`: who sent it and what was said. */
  datatype Message = Message(sender: string, message: string)

  const ShareWindow := 5
  const Attribution := "\n\nShared from BGPT - Role Model Academy"
  const Separator := "\n\n"

  function Min(a: int, b: int): int {
    if a <= b then a else b
  }

  /** `messages.slice(-5)`: the last five messages, or all of them when there
      are fewer, in their original order. */
  function Recent(messages: seq<Message>): (recent: seq<Message>)
    ensures |recent| == Min(ShareWindow, |messages|)
    ensures forall i :: 0 <= i < |recent| ==> recent[i] == messages[|messages| - |recent| + i]
  {
    messages[|messages| - Min(ShareWindow, |messages|)..]
  }

  /** Once the window is full, a new message pushes the oldest one out. */
  lemma RecentSlides(messages: seq<Message>, m: Message)
    requires |messages| >= ShareWindow
    ensures Recent(messages + [m]) == Recent(messages)[1..] + [m]
  {
    var r, r' := Recent(messages), Recent(messages + [m]);
    assert |r'| == |r[1..] + [m]|;
    forall i | 0 <= i < |r'| ensures r'[i] == (r[1..] + [m])[i] {
      if i < |r'| - 1 {
        assert r'[i] == messages[|messages| - ShareWindow + 1 + i];
      }
    }
  }

  /** 'Me' for the user, 'BGPT' for anyone else. */
  function SenderName(sender: string): string {
    if sender == "user" then "Me" else "BGPT"
  }

  function FormatMessage(m: Message): string {
    SenderName(m.sender) + ": " + m.message
  }

  /** Each message labelled with its sender, in the same order. */
  function Labelled(messages: seq<Message>): (lines: seq<string>)
    ensures |lines| == |messages|
    ensures forall i :: 0 <= i < |messages| ==> lines[i] == FormatMessage(messages[i])
  {
    seq(|messages|, i requires 0 <= i < |messages| => FormatMessage(messages[i]))
  }

  /** `parts.join(separator)`: nothing for no parts, the only part for one,
      and otherwise the first part followed by the separator and the join of
      the rest. */
  function Join(parts: seq<string>, separator: string): (s: string)
    ensures |parts| == 0 ==> s == []
    ensures |parts| > 0 ==> parts[0] <= s
  {
    if |parts| == 0 then []
    else if |parts| == 1 then parts[0]
    else parts[0] + separator + Join(parts[1..], separator)
  }

  /** A non-empty join ends with its last part. */
  lemma {:induction false} JoinEndsWithLast(parts: seq<string>, separator: string)
    requires |parts| > 0
    ensures var s, last := Join(parts, separator), parts[|parts| - 1];
            |last| <= |s| && s[|s| - |last|..] == last
    decreases |parts|
  {
    if |parts| > 1 {
      var rest := Join(parts[1..], separator);
      JoinEndsWithLast(parts[1..], separator);
      var s := parts[0] + separator + rest;
      assert s[|s| - |rest|..] == rest;
    }
  }

  lemma Regroup(a: string, b: string, c: string, d: string)
    ensures a + (b + c + d) == a + b + c + d
  {
  }

  /** Joining one more part appends the separator and that part. */
  lemma {:induction false} JoinSnoc(parts: seq<string>, p: string, separator: string)
    requires |parts| > 0
    ensures Join(parts + [p], separator) == Join(parts, separator) + separator + p
    decreases |parts|
  {
    var q := parts + [p];
    assert q[0] == parts[0];
    if |parts| == 1 {
      assert q[1..] == [p];
    } else {
      var b := Join(parts[1..], separator);
      assert q[1..] == parts[1..] + [p];
      JoinSnoc(parts[1..], p, separator);
      Regroup(parts[0] + separator, b, separator, p);
    }
  }

  /** `shareConversation`'s text: `None` (the "No messages to share" notice)
      for an empty history; otherwise the last messages, each labelled with
      its sender, in order, separated by a blank line, then the attribution. */
  function ShareText(messages: seq<Message>): (text: Option<string>)
    ensures text.None? <==> |messages| == 0
    ensures text.Some? ==> text.value == Join(Labelled(Recent(messages)), Separator) + Attribution
    ensures text.Some? ==>
              && |text.value| >= |Attribution|
              && text.value[|text.value| - |Attribution|..] == Attribution
    ensures text.Some? ==> FormatMessage(Recent(messages)[0]) <= text.value
  {
    if |messages| == 0 then None
    else
      var lines := Labelled(Recent(messages));
      var joined := Join(lines, Separator);
      var t := joined + Attribution;
      assert lines[0] == FormatMessage(Recent(messages)[0]);
      assert lines[0] <= joined && joined <= t;
      assert t[|t| - |Attribution|..] == Attribution;
      Some(t)
  }

  /** Below the window, sharing after one more message gives the text before
      it with a blank line and the new labelled message inserted before the
      attribution. */
  lemma ShareGrows(messages: seq<Message>, m: Message)
    requires 0 < |messages| < ShareWindow
    ensures ShareText(messages + [m])
            == Some(Join(Labelled(messages), Separator) + Separator + FormatMessage(m) + Attribution)
  {
    assert Recent(messages) == messages;
    assert Recent(messages + [m]) == messages + [m];
    assert Labelled(messages + [m]) == Labelled(messages) + [FormatMessage(m)];
    JoinSnoc(Labelled(messages), FormatMessage(m), Separator);
  }

  /** With the window full, sharing after one more message gives the text
      before it without its oldest entry, plus the new one. */
  lemma ShareAfterOneMore(messages: seq<Message>, m: Message)
    requires |messages| >= ShareWindow
    ensures ShareText(messages + [m])
            == Some(Join(Labelled(Recent(messages))[1..] + [FormatMessage(m)], Separator) + Attribution)
  {
    RecentSlides(messages, m);
    assert Labelled(Recent(messages + [m])) == Labelled(Recent(messages))[1..] + [FormatMessage(m)];
  }

  // ---------------------------------------------------------------- history list labels

  const LabelLimit := 60
  const Ellipsis := "..."

  /** A history-list label: kept whole up to 60 characters, otherwise cut to
      57 and ended with "...", so never longer than 60. */
  function HistoryLabel(content: string): (shown: string)
    ensures |shown| <= LabelLimit
    ensures |content| <= LabelLimit ==> shown == content
    ensures |content| > LabelLimit ==>
              && |shown| == LabelLimit
              && shown[..LabelLimit - |Ellipsis|] == content[..LabelLimit - |Ellipsis|]
              && shown[LabelLimit - |Ellipsis|..] == Ellipsis
  {
    if |content| > LabelLimit then content[..LabelLimit - |Ellipsis|] + Ellipsis else content
  }

  /** Labelling a label changes nothing. */
  lemma HistoryLabelIdempotent(content: string)
    ensures HistoryLabel(HistoryLabel(content)) == HistoryLabel(content)
  {
  }
}

=== FILE: Text.dfy ===
/**
 * The three string operations the chat widget relies on:
 * `String.prototype.trim`, `String.prototype.toLowerCase` (restricted to
 * ASCII letters) and `String.prototype.includes`.
 */
module Text {

  /** ECMAScript WhiteSpace and LineTerminator code points: exactly the
      characters that `trim` removes from either end. */
  predicate IsWhitespace(c: char) {
    c == '\t' || c == '\n' || c == '\U{000B}' || c == '\U{000C}' || c == '\r'
    || c == ' ' || c == '\U{00A0}' || c == '\U{1680}'
    || ('\U{2000}' <= c <= '\U{200A}')
    || c == '\U{2028}' || c == '\U{2029}' || c == '\U{202F}' || c == '\U{205F}'
    || c == '\U{3000}' || c == '\U{FEFF}'
  }

  predicate AllWhitespace(s: string) {
    forall i :: 0 <= i < |s| ==> IsWhitespace(s[i])
  }

  /** Drops the leading whitespace of `s`. */
  function TrimStart(s: string): (r: string)
    ensures |r| <= |s| && r == s[|s| - |r|..]
    ensures forall i :: 0 <= i < |s| - |r| ==> IsWhitespace(s[i])
    ensures r == [] || !IsWhitespace(r[0])
  {
    if |s| > 0 && IsWhitespace(s[0]) then TrimStart(s[1..]) else s
  }

  /** Drops the trailing whitespace of `s`. */
  function TrimEnd(s: string): (r: string)
    ensures |r| <= |s| && r == s[..|r|]
    ensures forall i :: |r| <= i < |s| ==> IsWhitespace(s[i])
    ensures r == [] || !IsWhitespace(r[|r| - 1])
  {
    if |s| > 0 && IsWhitespace(s[|s| - 1]) then TrimEnd(s[..|s| - 1]) else s
  }

  /** `r` is the slice of `s` that starts at `i`, and every character of
      `s` outside that slice is whitespace. */
  ghost predicate StripsTo(s: string, i: int, r: string) {
    && 0 <= i <= |s| - |r|
    && (forall k :: 0 <= k < |r| ==> r[k] == s[i + k])
    && (forall k :: 0 <= k < i ==> IsWhitespace(s[k]))
    && (forall k :: i + |r| <= k < |s| ==> IsWhitespace(s[k]))
  }

  /** The number of whitespace characters `trim` drops from the front. */
  function LeadingSpace(s: string): (n: nat)
    ensures n <= |s|
  {
    |s| - |TrimStart(s)|
  }

  /** `s.trim()`: the slice of `s` left after dropping whitespace at both
      ends; it starts and ends with non-whitespace, and is empty exactly when
      `s` is nothing but whitespace. */
  function Trim(s: string): (r: string)
    ensures StripsTo(s, LeadingSpace(s), r)
    ensures r == [] || (!IsWhitespace(r[0]) && !IsWhitespace(r[|r| - 1]))
    ensures r == [] <==> AllWhitespace(s)
  {
    var r := TrimEnd(TrimStart(s));
    TrimIsSlice(s);
    TrimStartsSolid(s);
    StripsToEmpty(s, LeadingSpace(s), r);
    r
  }

  /** Trimming the back keeps the non-whitespace front `TrimStart` left. */
  lemma TrimStartsSolid(s: string)
    ensures var r := TrimEnd(TrimStart(s));
            r == [] || !IsWhitespace(r[0])
  {
    var t := TrimStart(s);
    var r := TrimEnd(t);
    if r != [] {
      assert r[0] == t[0];
    }
  }

  /** Trimming the front and then the back leaves a slice of `s` with only
      whitespace outside it. */
  lemma TrimIsSlice(s: string)
    ensures StripsTo(s, LeadingSpace(s), TrimEnd(TrimStart(s)))
  {
    TrimKeepsMiddle(s);
    TrimDropsTail(s);
  }

  lemma TrimKeepsMiddle(s: string)
    ensures var r := TrimEnd(TrimStart(s));
            forall k :: 0 <= k < |r| ==> r[k] == s[LeadingSpace(s) + k]
  {
    var t := TrimStart(s);
    PrefixShifts(s, LeadingSpace(s), t, TrimEnd(t));
  }

  /** A prefix `r` of a suffix `s[i..]` sits in `s` from position `i`. */
  lemma PrefixShifts(s: string, i: nat, t: string, r: string)
    requires i <= |s| && t == s[i..]
    requires |r| <= |t| && r == t[..|r|]
    ensures forall k :: 0 <= k < |r| ==> r[k] == s[i + k]
  {
    forall k | 0 <= k < |r| ensures r[k] == s[i + k] {
      assert r[k] == t[k];
    }
  }

  lemma TrimDropsTail(s: string)
    ensures var r := TrimEnd(TrimStart(s));
            forall k :: LeadingSpace(s) + |r| <= k < |s| ==> IsWhitespace(s[k])
  {
    var t := TrimStart(s);
    WhitespaceTailShifts(s, LeadingSpace(s), t, |TrimEnd(t)|);
  }

  /** Whitespace from position `m` on in a suffix `s[i..]` is whitespace from
      `i + m` on in `s`. */
  lemma WhitespaceTailShifts(s: string, i: nat, t: string, m: nat)
    requires i <= |s| && t == s[i..]
    requires forall k :: m <= k < |t| ==> IsWhitespace(t[k])
    ensures forall k :: i + m <= k < |s| ==> IsWhitespace(s[k])
  {
    forall k | i + m <= k < |s| ensures IsWhitespace(s[k]) {
      assert s[k] == t[k - i];
    }
  }

  /** A slice with whitespace on both sides, starting with a non-whitespace
      character unless empty, is empty exactly when `s` is all whitespace. */
  lemma StripsToEmpty(s: string, i: int, r: string)
    requires StripsTo(s, i, r)
    requires r == [] || !IsWhitespace(r[0])
    ensures r == [] <==> AllWhitespace(s)
  {
    if r != [] {
      assert s[i] == r[0];
    }
  }

  /** Trimming twice is trimming once. */
  lemma TrimIdempotent(s: string)
    ensures Trim(Trim(s)) == Trim(s)
  {
    var r := Trim(s);
    if r != [] {
      assert TrimStart(r) == r;
      assert TrimEnd(r) == r;
    }
  }

  predicate IsAsciiUpper(c: char) {
    'A' <= c <= 'Z'
  }

  /** The distance from an ASCII capital to its small letter. */
  const CaseOffset := 'a' as int - 'A' as int

  /** One character of `toLowerCase`: an ASCII capital becomes its small
      letter, anything else is kept. */
  function LowerChar(c: char): (d: char)
    ensures !IsAsciiUpper(d)
    ensures IsAsciiUpper(c) ==> d as int == c as int + CaseOffset && 'a' <= d <= 'z'
    ensures !IsAsciiUpper(c) ==> d == c
  {
    if IsAsciiUpper(c) then (c as int + 32) as char else c
  }

  /** `s.toLowerCase()` on ASCII letters: same length, each ASCII capital
      replaced in place by its small letter, every other character kept. */
  function Lower(s: string): (r: string)
    ensures |r| == |s|
    ensures forall i :: 0 <= i < |r| ==> !IsAsciiUpper(r[i])
    ensures forall i :: 0 <= i < |s| && IsAsciiUpper(s[i]) ==> r[i] as int == s[i] as int + CaseOffset
    ensures forall i :: 0 <= i < |s| && !IsAsciiUpper(s[i]) ==> r[i] == s[i]
  {
    seq(|s|, i requires 0 <= i < |s| => LowerChar(s[i]))
  }

  /** Lower-casing is idempotent, so a classifier that lower-cases its input
      gives the same answer on already lower-cased text. */
  lemma LowerIdempotent(s: string)
    ensures Lower(Lower(s)) == Lower(s)
  {
  }

  /** `w` occurs in `t` starting at position `i`. */
  ghost predicate OccursAt(w: string, t: string, i: int) {
    0 <= i <= |t| - |w| && t[i..i + |w|] == w
  }

  /** `w` occurs in `t` at some position. */
  ghost predicate OccursIn(w: string, t: string) {
    exists i :: OccursAt(w, t, i)
  }

  /** `t.includes(w)`: scans `t` left to right for a position where `w`
      starts; the empty word is found everywhere. */
  function Includes(t: string, w: string): bool
    decreases |t|
  {
    if w <= t then true
    else if |t| == 0 then false
    else Includes(t[1..], w)
  }

  /** `Includes` finds `w` exactly when `w` occurs somewhere in `t`. */
  lemma {:induction false} IncludesSpec(t: string, w: string)
    ensures Includes(t, w) <==> OccursIn(w, t)
    decreases |t|
  {
    if w <= t {
      assert t[0..|w|] == w;
      assert OccursAt(w, t, 0);
    } else if |t| == 0 {
    } else {
      IncludesSpec(t[1..], w);
      if OccursIn(w, t) {
        var i :| OccursAt(w, t, i);
        if i == 0 {
          assert false;
        }
        OccursShift(t, w, i - 1);
      }
      if OccursIn(w, t[1..]) {
        var i :| OccursAt(w, t[1..], i);
        OccursShift(t, w, i);
      }
    }
  }

  /** An occurrence one place into `t` is an occurrence at the start of
      `t[1..]`, shifted. */
  lemma OccursShift(t: string, w: string, i: nat)
    requires |t| > 0
    ensures OccursAt(w, t, i + 1) <==> OccursAt(w, t[1..], i)
  {
    if i + |w| <= |t| - 1 {
      assert t[1..][i..i + |w|] == t[i + 1..i + 1 + |w|];
    }
  }

  /** `ch` does not appear in `s`. */
  predicate Lacks(s: string, ch: char) {
    forall i :: 0 <= i < |s| ==> s[i] != ch
  }

  lemma LacksConcat(a: string, b: string, ch: char)
    requires Lacks(a, ch) && Lacks(b, ch)
    ensures Lacks(a + b, ch)
  {
    forall i | 0 <= i < |a + b| ensures (a + b)[i] != ch {
      if i >= |a| {
        assert (a + b)[i] == b[i - |a|];
      }
    }
  }

  /** A word one of whose characters does not appear in the text is not
      included in it. */
  lemma NotIncludedWithout(t: string, w: string, k: nat)
    requires k < |w|
    requires Lacks(t, w[k])
    ensures !Includes(t, w)
  {
    IncludesSpec(t, w);
  }
}

=== FILE: Topics.dfy ===
/**
 * Conversation topics of `PremiumFeatures` (enhanced-features.js): the
 * classifier `getContextFromMessage`, the background listener that reacts
 * to a sent message, and the follow-up suggestions of each topic.
 */
module Topics {
  import opened Wrappers
  import opened Text
  import opened Classify

  datatype Topic = Presence | Goals | Fundamentals | Default

  const TopicRules: seq<Rule<Topic>> := [
    Rule(Presence, ["presence", "mindful", "awareness"]),
    Rule(Goals, ["goal", "achieve", "target"]),
    Rule(Fundamentals, ["fundamental", "principle", "core"])
  ]

  /** `getContextFromMessage(message)`: the first topic one of whose keywords
      occurs in the message, or `Default`. It does not lower-case; its caller
      does. */
  function GetContextFromMessage(message: string): (t: Topic)
    ensures t == Default <==> forall j :: 0 <= j < |TopicRules| ==> !Matches(message, TopicRules[j])
  {
    CategorizeIsFallback(message, TopicRules, Default);
    Categorize(message, TopicRules, Default)
  }

  /** Topic `k` is chosen exactly when it matches and no earlier one does. */
  lemma ContextPriority(message: string, k: nat)
    requires k < |TopicRules|
    ensures GetContextFromMessage(message) == TopicRules[k].category
        <==> Matches(message, TopicRules[k]) && forall j :: 0 <= j < k ==> !Matches(message, TopicRules[j])
  {
    CategorizeIsFirstMatch(message, TopicRules, Default, k);
  }

  /** The listener on `bgpt-message-sent` that picks the background: it
      lower-cases the message and runs its own chain of tests, changing the
      background only when a topic matches. */
  function BackgroundFor(message: string): (o: Option<Topic>)
    ensures o.None? <==> forall j :: 0 <= j < |TopicRules| ==> !Matches(Lower(message), TopicRules[j])
    ensures o != Some(Default)
  {
    var m := Lower(message);
    ContainsThreeWords(m, "presence", "mindful", "awareness");
    ContainsThreeWords(m, "goal", "achieve", "target");
    ContainsThreeWords(m, "fundamental", "principle", "core");
    assert Matches(m, TopicRules[0]) == ContainsWords(m, ["presence", "mindful", "awareness"]);
    assert Matches(m, TopicRules[1]) == ContainsWords(m, ["goal", "achieve", "target"]);
    assert Matches(m, TopicRules[2]) == ContainsWords(m, ["fundamental", "principle", "core"]);
    if Includes(m, "presence") || Includes(m, "mindful") || Includes(m, "awareness") then Some(Presence)
    else if Includes(m, "goal") || Includes(m, "achieve") || Includes(m, "target") then Some(Goals)
    else if Includes(m, "fundamental") || Includes(m, "principle") || Includes(m, "core") then Some(Fundamentals)
    else None
  }

  /** The background listener and `getContextFromMessage` agree: the listener
      changes the background to exactly the topic the classifier gives the
      lower-cased message, and leaves it alone when that topic is `Default`. */
  lemma BackgroundAgreesWithContext(message: string)
    ensures var t := GetContextFromMessage(Lower(message));
            BackgroundFor(message) == if t == Default then None else Some(t)
  {
    var m := Lower(message);
    ContainsThreeWords(m, "presence", "mindful", "awareness");
    ContainsThreeWords(m, "goal", "achieve", "target");
    ContainsThreeWords(m, "fundamental", "principle", "core");
    ContextPriority(m, 0);
    ContextPriority(m, 1);
    ContextPriority(m, 2);
  }

  /** `this.suggestionsByContext`. */
  const SuggestionsByContext: map<Topic, seq<string>> := map[
    Presence := [
      "How can I improve my presence during meetings?",
      "What mindfulness techniques work best for beginners?",
      "How does presence affect performance?"],
    Goals := [
      "How do I stay motivated when facing obstacles?",
      "What's the best way to track progress on goals?",
      "How often should I review my goals?"],
    Fundamentals := [
      "Which fundamental should I focus on first?",
      "How do these fundamentals work together?",
      "Are there exercises for improving discipline?"],
    Default := [
      "Tell me more about Role Model Academy",
      "What coaching programs do you offer?",
      "How can I apply these concepts today?"]
  ]

  lemma EveryTopicHasSuggestions(t: Topic)
    ensures t in SuggestionsByContext && |SuggestionsByContext[t]| == 3
  {
    match t
    case Presence =>
    case Goals =>
    case Fundamentals =>
    case Default =>
  }

  /** `suggestionsByContext[context] || suggestionsByContext.default`: every
      topic has its own three suggestions, so the fallback to the default
      list never fires and the lookup is the topic's own entry. */
  function Suggestions(t: Topic): (s: seq<string>)
    ensures t in SuggestionsByContext && s == SuggestionsByContext[t]
    ensures |s| == 3
  {
    EveryTopicHasSuggestions(t);
    SuggestionsByContext[t]
  }

  /** The listener on `bgpt-bot-response`: suggestions for the topic of the
      lower-cased reply. */
  function SuggestionsAfterReply(reply: string): (s: seq<string>)
    ensures s == SuggestionsByContext[GetContextFromMessage(Lower(reply))]
    ensures |s| == 3
  {
    Suggestions(GetContextFromMessage(Lower(reply)))
  }
}

=== FILE: Wrappers.dfy ===
/** Optional values: the model's stand-in for JavaScript's `undefined`. */
module Wrappers {

  datatype Option<+T> = None | Some(value: T)

}
